=== FILE: README.md ===
# Forecast orchestration core, modelled in Dafny

This project models the forecasting core of a time-series dashboard, written in Python on top of the darts library:

- **`Forecast.fit_and_forecast`**. It splits the series 80/20 into training and validation parts. It then runs a validation loop: each selected model is fitted on the training part, forecasts the validation span, and is scored. An optional `'Ensemble'` entry is added. Finally it runs a full-retrain loop: each model is fitted on the whole series and forecasts `n_days` ahead, again with an optional `'Ensemble'` entry. It returns a result bundle.
- **The dashboard's two option helpers**: `get_ensemble_options` and `get_available_models`.
- **The model registry**: `AVAILABLE_MODELS` and the case-insensitive `get_model`.
- **`ensemble_forecasts`**: the elementwise mean of several forecasts.
- **The header and row handling of `parse_csv_contents`**: the data-URI split, column-name normalisation, the required-column check, sorting by date, and resetting the index.

Series are sequences of `(timestamp, real)` points. The statistics library is one value of type `ModelFactory.Library`. It holds four total functions, none of them interpreted:
- the timestamp of the i-th forecast step after a training series;
- the value a technique predicts at a step;
- `mape`;
- `rmse`.

The forecast index depends only on the training series and the horizon. This matches darts, which continues the training index. As a result, forecasts fitted on the same data always share a time index, and the model proves that the orchestrator's ensemble step can never fail. Base64 decoding, `pd.read_csv` and `pd.to_datetime` are likewise total function parameters of `DataLoader.ParseCsvContents`.

Modules: `Wrappers` (results and the error taxonomy), `Text` (`str.lower`, `str.strip`), `TimeSeries`, `ModelFactory`, `Ensemble`, `Forecast`, `DataLoader`, and `Seqs` (small facts about sequence concatenation used by the proofs).

The model follows the code in these respects:
- Model failures are not caught per model. An unknown name aborts the whole run.
- The registry holds `arima`, `prophet`, `exponentialsmoothing` and `theta`.
- There is no cross-validation or backtest path.
- Metrics are never null.

## Model

| member | source | states |
|---|---|---|
| Text.Lower | models/model_factory.py:18 | `str.lower`: same length, no upper-case letter left, every other character kept, each upper-case letter mapped to its lower-case partner |
| Text.Strip | utils/data_loader.py:17 | `str.strip`: the result has no whitespace at either end |
| Text.StripUnpads | utils/data_loader.py:17 | `str.strip` removes whitespace only: the input is the result padded on both sides with whitespace |
| Text.StripPadded | utils/data_loader.py:17 | stripping any whitespace padding of a trimmed string gives that string back |
| Text.StripIdempotent | utils/data_loader.py:17 | stripping twice is stripping once |
| ModelFactory.RegistryIsCanonical | models/model_factory.py:10-15 | the registry has exactly four keys, all lowercase and pairwise distinct |
| ModelFactory.GetModel | models/model_factory.py:17-21 | succeeds iff the lowercased name is a registry key; it then returns a fresh, unfitted model of the technique registered under that key; otherwise it fails with "unsupported model" carrying the lowercased name |
| ModelFactory.GetModelIgnoresCase | models/model_factory.py:18 | `get_model(name)` and `get_model(name.lower())` behave identically |
| ModelFactory.EnsembleIsNotAModel | models/model_factory.py:10-20 | `get_model("ensemble")` fails with "unsupported model: ensemble" |
| ModelFactory.Fit | models/forecast.py:54 | fitting keeps the model's technique and leaves it fitted on exactly the given series, whatever it was fitted on before |
| ModelFactory.Predict | models/forecast.py:25-26 | a fitted model's forecast over `h` steps has exactly `h` points, on a time index that depends on the training data and not on the technique |
| Ensemble.EnsembleForecasts | models/ensemble.py:5-8 | an empty list fails with "no forecasts"; series of different lengths fail; otherwise the result keeps the first series' time index and length, and `n` times its value at each position is the sum of the inputs there; series sharing one time index are always accepted |
| Ensemble.EnsembleKeepsFirstIndex | models/ensemble.py:8 | timestamps play no part in the averaging: one-point series at times `t0` and `t1` with values 1 and 3 average to the value 2 at `t0` |
| Ensemble.EnsembleWithinRange | models/ensemble.py:8 | at every index the ensemble value lies between the smallest and the largest input value |
| Ensemble.EnsembleOfCopies | models/ensemble.py:8 | the ensemble of several copies of one series is that series |
| Ensemble.EnsembleOfOne | models/ensemble.py:8 | the ensemble of a single series is that series |
| Forecast.RealModels | models/forecast.py:21-23 | the names the validation loop keeps are exactly those whose lowercase is not "ensemble"; the list is unchanged when it holds no such name |
| Forecast.RealModelsOne | models/forecast.py:21-23 | a single name is kept exactly when its lowercase is not "ensemble" |
| Forecast.RealModelsAppend | models/forecast.py:21-23 | the filter keeps order and multiplicity: filtering a concatenation is the concatenation of the filtered parts |
| Forecast.RegisteredIsReal | models/forecast.py:21-23 | a list of registered names loses nothing to the "ensemble" filter |
| Forecast.SplitIndex | models/forecast.py:15 | the training length is the floor of four fifths of the series length, and leaves at least one validation point for a non-empty series |
| Forecast.Split | models/forecast.py:15-16 | training part followed by validation part is the whole series; on increasing timestamps every training point precedes every validation point |
| Forecast.Validated | models/forecast.py:21-35 | the reference result of the validation loop over registered names has one forecast and one metrics record per name |
| Forecast.ValidatedAt | models/forecast.py:21-35 | position `i` of the reference result holds the forecast of `models[i]` fitted on `train` over `len(val)` steps, named `models[i]`, and its scores against `val` |
| Forecast.ValidationPhase | models/forecast.py:18-35 | succeeds iff every non-"ensemble" name is registered, and then equals the reference result over those names in order; on failure the error is that of the first non-"ensemble" name the registry rejects |
| Forecast.ForecastsShareIndex | models/forecast.py:38-39 | forecasts fitted on the same series over the same horizon share a time index and have that horizon's length |
| Forecast.Validate | models/forecast.py:18-46 | the validation stage: fails with the error of the first non-"ensemble" name the registry rejects, and otherwise gives the per-model entries, then an `'Ensemble'` forecast (the mean of the model forecasts) and its metrics, appended last exactly when the flag is set and more than one model was validated |
| Forecast.RetrainPhase | models/forecast.py:49-56 | succeeds iff every name, "ensemble" included, is registered; on failure the error is that of the first name the registry rejects; otherwise there is one `n_days`-step forecast fitted on the whole series per name, in order |
| Forecast.Retrain | models/forecast.py:49-60 | the full-retrain stage: fails with the error of the first name the registry rejects, and otherwise gives the per-model forecasts, then the `'Ensemble'` mean appended last exactly when the flag is set and more than one forecast exists; every forecast has `n_days` points |
| Forecast.FitAndForecast | models/forecast.py:12-68 | succeeds iff every listed name is registered; a failure is either that of the first non-"ensemble" name the registry rejects, or, when every non-"ensemble" name is registered, that of the first name the full-retrain loop cannot build; `val_truth` is the validation part and `truth` is absent; metrics and validation forecasts have equal length and matching names; both stages list the models in input order, followed by the conditional ensemble entry |
| Forecast.FirstUnknownNameReported | models/forecast.py:21-24 | when the first listed name is neither "ensemble" nor registered, the run fails with the error for that name, whatever names follow |
| Forecast.EnsembleOptionAborts | models/forecast.py:21-53 | a model list containing "ensemble" always fails; when every other name is registered, the failure is "unsupported model: ensemble" |
| Forecast.FitAndForecastSkippingEnsemble | models/forecast.py:12-68 | with "ensemble" skipped in both loops: succeeds iff every other name is registered, and both stages report the same names in the same order |
| Forecast.StagesAgreeOnNames | models/forecast.py:38-60 | validation entries and future forecasts built from the same models, with the ensemble entry in both or neither, carry the same names |
| Forecast.SkippingEnsembleAgrees | models/forecast.py:49-56 | on lists without "ensemble", the corrected and the as-written orchestrators give the same result |
| Forecast.SkippingEnsembleAccepts | models/forecast.py:52-53 | on `["arima", "ensemble"]` the as-written orchestrator fails, while the corrected one succeeds |
| Forecast.GetEnsembleOptions | models/forecast.py:71-74 | offers `['ensemble']` iff more than one model is selected, and nothing otherwise |
| Forecast.GetAvailableModels | models/forecast.py:76-80 | the registry keys in order, then "ensemble" iff it is asked for |
| Forecast.OfferedEnsembleIsDelivered | models/forecast.py:38-60 | when the option is offered and taken for registered models, the metrics, the validation forecasts and the future forecasts each end with the `'Ensemble'` entry |
| Forecast.AvailableModelsAreRegistered | models/forecast.py:76-80 | with ensembling on, the model list is the registry keys followed by "ensemble", and the validation loop keeps exactly the registry keys |
| Forecast.AvailableModelsWithOptionAbort | models/forecast.py:76-80 | running on the model list offered with ensembling on always fails with "unsupported model: ensemble" |
| DataLoader.SplitContents | utils/data_loader.py:11 | the two-way unpack succeeds iff the contents hold exactly one comma; the payload is the comma-free text after it; otherwise the error carries the comma count |
| DataLoader.SplitContentsRoundTrip | utils/data_loader.py:11 | splitting `header + "," + payload`, both comma-free, gives back `payload` |
| DataLoader.NormaliseName | utils/data_loader.py:17 | the lowercased raw name is the normalised name padded on both sides with whitespace only; the normalised name has no surrounding whitespace and no upper-case letter, and is no longer than the raw name |
| DataLoader.NormaliseNameUnique | utils/data_loader.py:17 | any trimmed string that the lowercased raw name pads with whitespace only is the normalised name, so the two properties above fix the result exactly |
| DataLoader.NormaliseNameCanonical | utils/data_loader.py:17 | a normalised column name has no surrounding whitespace and no upper-case letter, and normalising it again changes nothing |
| DataLoader.FrameOf | utils/data_loader.py:17-25 | on the decoded table: fails with "missing columns" iff the normalised header lacks `date` or `value`; otherwise keeps the normalised header, and returns the rows (dates parsed) permuted into ascending date order, with the index `0..n-1` |
| DataLoader.SortByDate | utils/data_loader.py:24 | the rows come back in ascending date order, as a permutation of the input |
| DataLoader.ParseCsvContents | utils/data_loader.py:6-27 | fails unless the contents hold exactly one comma; fails on a header lacking `date` or `value` after stripping and lowercasing; otherwise returns the normalised header, the rows (dates parsed) permuted into ascending date order, and the index `0..n-1` |
| DataLoader.InsertSorted | utils/data_loader.py:24 | inserting a row into date-sorted rows keeps them sorted, and the first row is either the inserted one or the old first row |
| DataLoader.InsertPermutes | utils/data_loader.py:24 | inserting a row adds exactly that row and loses none |
| DataLoader.ParsedHeaderIsNormalised | utils/data_loader.py:17-21 | every parsed column name is the stripped, lowercased input name, with no surrounding whitespace, and `date` and `value` are among them |
| DataLoader.ParsedRowsCarryTheirDate | utils/data_loader.py:23-24 | every output row has one cell per column, and its date cell holds the date it was sorted by |

## Left out

- Model fitting and prediction (ARIMA, Prophet, ExponentialSmoothing, Theta) are uninterpreted functions of `ModelFactory.Library`. Errors the library raises inside `fit`, `predict`, `mape` or `rmse` are not modelled, because their causes are numerical (non-convergence, zero truth values).
- Floating point is not modelled. Values are exact reals, and `int(0.8 * len(ts))` is the exact `(4 * n) / 5`. The two agree, because the double nearest 0.8 lies above 0.8, so the product never rounds below an integer.
- `TimeSeries.from_dataframe` is not modelled: `Forecast.FitAndForecast` receives the series itself.
- `Forecast.FitAndForecast` takes `n_days` as a natural number. Negative horizons are not modelled.
- The `model_instances` dictionary is not modelled. The orchestrator writes to it but never returns or reads it.
- The callback passes `cross_validate`, `window_type` and `stride` to `fit_and_forecast`, whose signature accepts only `df` and `n_days`. No backtest, stride or window code exists, so none is modelled.
- Base64 decoding, `pd.read_csv` and `pd.to_datetime` are total function parameters. Their failures are not modelled: an undecodable payload, a malformed CSV file, or an unparsable date. A missing date (`NaT`, which `sort_values` puts last) cannot be represented either. Dates are converted field by field, whereas pandas converts the whole column at once. The decoded table is assumed rectangular, as `pd.read_csv` produces it. Non-date fields are kept as text.
- DataLoader.FrameOf, DataLoader.ParseCsvContents: when two columns normalise to `date`, they use the first and succeed. pandas selects both: `df['date']` is then a two-column frame, and `pd.to_datetime` raises a `ValueError` on it because it expects year, month and day columns. The source therefore fails on such a header, and the model does not.
- Text.Lower: lowers ASCII letters only. `str.lower` also maps non-ASCII upper-case letters.
- Text.Strip: strips the whitespace characters below code point 256 only. `str.strip` also strips the other Unicode spaces.
- Ensemble.EnsembleForecasts: the error for series of different lengths comes from darts series arithmetic, which is not part of this model. darts compares only the shapes of the value arrays and keeps the left operand's time index; the model states that behaviour for univariate series, without darts' own message. Multivariate and probabilistic series are not modelled.
- The Dash UI, callbacks and layout, the plotting helpers, the HTTP API, the darts batch-evaluation wrappers and the sandbox script are not part of this model.

## Findings

| source | as written | input that shows it | evidently intended | confidence | as-written member | corrected member |
|---|---|---|---|---|---|---|
| models/forecast.py:52-53 | the full-retrain loop hands every listed name to `get_model`, "ensemble" included, although the validation loop skips it (lines 22-23) | models `["arima", "ensemble"]`, ensemble flag on: validation succeeds, then `get_model("ensemble")` raises "Unsupported model: ensemble". The dashboard builds such a list itself, because with ensembling on, `get_available_models` adds "ensemble" to the model choices | skip "ensemble" in the full-retrain loop too, so that both stages report the same entries | medium, not executed | Forecast.EnsembleOptionAborts | Forecast.FitAndForecastSkippingEnsemble |

=== FILE: data_loader.dfy ===
/** `parse_csv_contents`: from an uploaded data URI to a frame with
    normalised column names, rows sorted by date and a fresh index. */
module DataLoader {
  import opened Wrappers
  import opened TimeSeries
  import Text
  import Seqs

  /** Occurrences of `c` in `s`. */
  function CountChar(s: string, c: char): nat {
    if s == [] then 0 else (if s[0] == c then 1 else 0) + CountChar(s[1..], c)
  }

  /** Counting distributes over concatenation, and a count is zero exactly
      when the character is absent. */
  lemma {:induction false} CountCharConcat(a: string, b: string, c: char)
    ensures CountChar(a + b, c) == CountChar(a, c) + CountChar(b, c)
    ensures CountChar(a, c) == 0 <==> c !in a
  {
    if a != [] {
      assert (a + b)[1..] == a[1..] + b;
      CountCharConcat(a[1..], b, c);
      assert c in a <==> a[0] == c || c in a[1..];
    } else {
      assert a + b == b;
    }
  }

  /** Position of the first `c` in `s`. */
  function FirstIndex(s: string, c: char): (k: nat)
    requires c in s
    ensures k < |s| && s[k] == c
    ensures c !in s[..k]
  {
    if s[0] == c then 0
    else
      assert c in s[1..];
      var k := FirstIndex(s[1..], c);
      assert s[..k + 1] == [s[0]] + s[1..][..k];
      k + 1
  }

  /** `content_type, content_string = contents.split(',')`: the unpack
      succeeds only when there is exactly one comma, and the payload is what
      follows it. */
  function SplitContents(contents: string): (r: Result<string>)
    ensures r.Ok? <==> CountChar(contents, ',') == 1
    ensures r.Err? ==> r.error == MalformedContents(CountChar(contents, ','))
    ensures r.Ok? ==> ',' !in r.value
    ensures r.Ok? ==>
      exists k :: 0 <= k < |contents| && contents[k] == ',' && contents[..k] + [','] + r.value == contents
  {
    var n := CountChar(contents, ',');
    if n != 1 then Err(MalformedContents(n))
    else
      CountCharConcat(contents, [], ',');
      var k := FirstIndex(contents, ',');
      var payload := contents[k + 1..];
      assert contents == contents[..k] + ([','] + payload);
      CountCharConcat(contents[..k], [','] + payload, ',');
      CountCharConcat([','], payload, ',');
      CountCharConcat(payload, [], ',');
      assert contents[..k] + [','] + payload == contents;
      Ok(payload)
  }

  /** Splitting a header and a comma-free payload joined by one comma gives
      the payload back. */
  lemma SplitContentsRoundTrip(header: string, payload: string)
    requires ',' !in header && ',' !in payload
    ensures SplitContents(header + [','] + payload) == Ok(payload)
  {
    var s := header + [','] + payload;
    Seqs.AppendAssociates(header, [','], payload);
    CountCharConcat(header, [','] + payload, ',');
    CountCharConcat([','], payload, ',');
    CountCharConcat(payload, [], ',');
    var k := FirstIndex(s, ',');
    assert s[|header|] == ',';
    assert forall i :: 0 <= i < k ==> s[..k][i] == s[i];
    assert k == |header|;
    assert s[k + 1..] == payload;
  }

  /** The table `pd.read_csv` produces: a header, and rows of as many fields. */
  datatype RawTable = RawTable(columns: seq<string>, rows: seq<seq<string>>)

  predicate Rectangular(t: RawTable) {
    forall i :: 0 <= i < |t.rows| ==> |t.rows[i]| == |t.columns|
  }

  type CsvTable = t: RawTable | Rectangular(t) witness RawTable([], [])

  /** A field as read, or a date after `pd.to_datetime`. */
  datatype Cell = Field(text: string) | Stamp(time: Timestamp)

  /** A row of the frame with its parsed date pulled out as the sort key. */
  datatype Row = Row(date: Timestamp, cells: seq<Cell>)

  datatype Frame = Frame(columns: seq<string>, index: seq<nat>, rows: seq<Row>)

  /** `.str.strip().str.lower()` on one column name: the lowercased name
      is the result padded on both sides with whitespace only, and the
      result itself has no surrounding whitespace and no upper-case letter. */
  function NormaliseName(name: string): (r: string)
    ensures Text.Trimmed(r)
    ensures forall i :: 0 <= i < |r| ==> !Text.IsUpper(r[i])
    ensures |r| <= |name|
    ensures exists a, b :: Text.AllSpace(a) && Text.AllSpace(b) && Text.Lower(name) == a + r + b
  {
    var stripped := Text.Strip(name);
    Text.LowerKeepsTrimmed(stripped);
    Text.StripUnpads(name);
    var a, b :| name == a + stripped + b && Text.AllSpace(a) && Text.AllSpace(b);
    Text.LowerAppend(a + stripped, b);
    Text.LowerAppend(a, stripped);
    Text.LowerKeepsSpace(a);
    Text.LowerKeepsSpace(b);
    Text.Lower(stripped)
  }

  /** The normalised name is the only trimmed string that the lowercased
      name pads with whitespace: normalising is lowering, then cutting the
      surrounding whitespace off. */
  lemma NormaliseNameUnique(name: string, a: string, t: string, b: string)
    requires Text.AllSpace(a) && Text.AllSpace(b) && Text.Trimmed(t)
    requires Text.Lower(name) == a + t + b
    ensures t == NormaliseName(name)
  {
    var r := NormaliseName(name);
    var a', b' :| Text.AllSpace(a') && Text.AllSpace(b') && Text.Lower(name) == a' + r + b';
    Text.StripPadded(a, t, b);
    Text.StripPadded(a', r, b');
  }

  /** A normalised name has no surrounding whitespace and no upper-case
      letter, so normalising it again changes nothing. */
  lemma NormaliseNameCanonical(name: string)
    ensures Text.Trimmed(NormaliseName(name))
    ensures forall i :: 0 <= i < |NormaliseName(name)| ==> !Text.IsUpper(NormaliseName(name)[i])
    ensures NormaliseName(NormaliseName(name)) == NormaliseName(name)
  {
    var stripped := Text.Strip(name);
    var n := Text.Lower(stripped);
    assert Text.Trimmed(n) by { Text.LowerKeepsTrimmed(stripped); }
    assert Text.Strip(n) == n by {
      Text.StripPadded([], n, []);
      assert [] + n + [] == n;
    }
    assert Text.Lower(n) == n by { Text.LowerIdempotent(stripped); }
  }

  function NormaliseColumns(columns: seq<string>): seq<string> {
    seq(|columns|, i requires 0 <= i < |columns| => NormaliseName(columns[i]))
  }

  /** Position of the first column called `name`. */
  function ColumnIndex(columns: seq<string>, name: string): (k: nat)
    requires name in columns
    ensures k < |columns| && columns[k] == name
  {
    if columns[0] == name then 0 else ColumnIndex(columns[1..], name) + 1
  }

  /** `pd.to_datetime` applied to the date field of one row. */
  function ConvertRow(fields: seq<string>, d: nat, toDatetime: string -> Timestamp): Row
    requires d < |fields|
  {
    var t := toDatetime(fields[d]);
    Row(t, seq(|fields|, j requires 0 <= j < |fields| => if j == d then Stamp(t) else Field(fields[j])))
  }

  function ConvertRows(rows: seq<seq<string>>, d: nat, toDatetime: string -> Timestamp): seq<Row>
    requires forall i :: 0 <= i < |rows| ==> d < |rows[i]|
  {
    seq(|rows|, i requires 0 <= i < |rows| => ConvertRow(rows[i], d, toDatetime))
  }

  predicate SortedByDate(rows: seq<Row>) {
    forall i, j :: 0 <= i < j < |rows| ==> rows[i].date <= rows[j].date
  }

  /** A row no later than the head of a sorted sequence can go in front. */
  lemma SortedCons(y: Row, s: seq<Row>)
    requires SortedByDate(s)
    requires |s| > 0 ==> y.date <= s[0].date
    ensures SortedByDate([y] + s)
  {
    var r := [y] + s;
    forall i, j | 0 <= i < j < |r|
      ensures r[i].date <= r[j].date
    {
      if i > 0 {
        assert r[i] == s[i - 1] && r[j] == s[j - 1];
      } else if j > 1 {
        assert r[j] == s[j - 1];
        assert s[0].date <= s[j - 1].date;
      }
    }
  }

  lemma SortedTail(s: seq<Row>)
    requires SortedByDate(s) && |s| > 0
    ensures SortedByDate(s[1..])
  {
    forall i, j | 0 <= i < j < |s| - 1
      ensures s[1..][i].date <= s[1..][j].date
    {
      assert s[1..][i] == s[i + 1] && s[1..][j] == s[j + 1];
    }
  }

  /** `x` placed before the first row of `s` dated no earlier than it. */
  function Insert(x: Row, s: seq<Row>): seq<Row> {
    if s == [] then [x]
    else if x.date <= s[0].date then [x] + s
    else [s[0]] + Insert(x, s[1..])
  }

  /** Inserting into a sorted sequence keeps it sorted; the first row is
      the inserted one or the old first row. */
  lemma {:induction false} InsertSorted(x: Row, s: seq<Row>)
    requires SortedByDate(s)
    ensures SortedByDate(Insert(x, s))
    ensures |Insert(x, s)| > 0 && (Insert(x, s)[0] == x || (|s| > 0 && Insert(x, s)[0] == s[0]))
  {
    if s == [] {
    } else if x.date <= s[0].date {
      SortedCons(x, s);
    } else {
      var tail := s[1..];
      SortedTail(s);
      InsertSorted(x, tail);
      var rest := Insert(x, tail);
      assert |tail| > 0 ==> tail[0] == s[1];
      SortedCons(s[0], rest);
    }
  }

  /** Inserting adds exactly one row and loses none. */
  lemma {:induction false} InsertPermutes(x: Row, s: seq<Row>)
    ensures multiset(Insert(x, s)) == multiset(s) + multiset{x}
  {
    if s != [] && x.date > s[0].date {
      InsertPermutes(x, s[1..]);
      Seqs.HeadTailMultiset(s);
    }
  }

  /** `sort_values('date')`: a permutation of the rows in ascending date
      order (the library's sort is not stable, so nothing is promised about
      the order of rows with equal dates). */
  function SortByDate(rows: seq<Row>): (r: seq<Row>)
    ensures SortedByDate(r)
    ensures multiset(r) == multiset(rows)
  {
    if rows == [] then []
    else
      var sorted := SortByDate(rows[1..]);
      InsertSorted(rows[0], sorted);
      InsertPermutes(rows[0], sorted);
      Seqs.HeadTailMultiset(rows);
      Insert(rows[0], sorted)
  }

  /** `parse_csv_contents` after `pd.read_csv`: the header normalised and checked,
      then the rows with their dates parsed, sorted, and re-indexed. */
  function FrameOf(table: CsvTable, toDatetime: string -> Timestamp): (r: Result<Frame>)
    ensures
      var columns := NormaliseColumns(table.columns);
      && (r.Ok? <==> "date" in columns && "value" in columns)
      && (r.Err? ==> r.error == MissingColumns)
      && (r.Ok? ==>
            && r.value.columns == columns
            && SortedByDate(r.value.rows)
            && multiset(r.value.rows) == multiset(ConvertRows(table.rows, ColumnIndex(columns, "date"), toDatetime))
            && |r.value.index| == |r.value.rows| == |table.rows|
            && (forall i :: 0 <= i < |r.value.index| ==> r.value.index[i] == i))
  {
    var columns := NormaliseColumns(table.columns);
    if "date" !in columns || "value" !in columns then Err(MissingColumns)
    else Ok(FrameWithHeader(columns, table.rows, toDatetime))
  }

  /** The date conversion, the sort and the index reset of
      `parse_csv_contents`, under an already checked header. */
  function FrameWithHeader(columns: seq<string>, rows: seq<seq<string>>, toDatetime: string -> Timestamp): (f: Frame)
    requires "date" in columns
    requires forall i :: 0 <= i < |rows| ==> |rows[i]| == |columns|
    ensures f.columns == columns
    ensures SortedByDate(f.rows)
    ensures multiset(f.rows) == multiset(ConvertRows(rows, ColumnIndex(columns, "date"), toDatetime))
    ensures |f.index| == |f.rows| == |rows|
    ensures forall i :: 0 <= i < |f.index| ==> f.index[i] == i
  {
    var d := ColumnIndex(columns, "date");
    var sorted := SortedRows(rows, d, toDatetime);
    Frame(columns, seq(|sorted|, i requires 0 <= i < |sorted| => i), sorted)
  }

  /** `pd.to_datetime` on the date column, then `sort_values('date')`:
      the rows with their dates parsed, in ascending date order. */
  function SortedRows(rows: seq<seq<string>>, d: nat, toDatetime: string -> Timestamp): (r: seq<Row>)
    requires forall i :: 0 <= i < |rows| ==> d < |rows[i]|
    ensures SortedByDate(r)
    ensures multiset(r) == multiset(ConvertRows(rows, d, toDatetime))
    ensures |r| == |rows|
  {
    var converted := ConvertRows(rows, d, toDatetime);
    var sorted := SortByDate(converted);
    assert |sorted| == |rows| by {
      assert |multiset(sorted)| == |multiset(converted)|;
    }
    sorted
  }

  /** `parse_csv_contents`, with base64 decoding and `pd.read_csv` given as
      `decode` and `pd.to_datetime` on one field given as `toDatetime`.
      A data URI without exactly one comma, or a header lacking `date` or
      `value` once every name is stripped and lowercased, is an error.
      Otherwise the frame has the normalised header, the decoded rows with
      their dates parsed, rearranged into ascending date order, and the
      index `0, 1, ..., n - 1`. */
  function ParseCsvContents(contents: string, decode: string -> CsvTable, toDatetime: string -> Timestamp): (r: Result<Frame>)
    ensures CountChar(contents, ',') != 1 ==> r == Err(MalformedContents(CountChar(contents, ',')))
    ensures CountChar(contents, ',') == 1 ==>
      var table := decode(SplitContents(contents).value);
      var columns := NormaliseColumns(table.columns);
      && (r.Ok? <==> "date" in columns && "value" in columns)
      && (r.Err? ==> r.error == MissingColumns)
      && (r.Ok? ==>
            && r.value.columns == columns
            && SortedByDate(r.value.rows)
            && multiset(r.value.rows) == multiset(ConvertRows(table.rows, ColumnIndex(columns, "date"), toDatetime))
            && |r.value.index| == |r.value.rows| == |table.rows|
            && (forall i :: 0 <= i < |r.value.index| ==> r.value.index[i] == i))
  {
    var payload :- SplitContents(contents);
    FrameOf(decode(payload), toDatetime)
  }

  /** The header of a parsed frame is the decoded header, each name
      stripped of surrounding whitespace and lowercased; it holds `date`
      and `value`. */
  lemma ParsedHeaderIsNormalised(contents: string, decode: string -> CsvTable, toDatetime: string -> Timestamp)
    ensures
      var r := ParseCsvContents(contents, decode, toDatetime);
      r.Ok? ==>
        var table := decode(SplitContents(contents).value);
        && |r.value.columns| == |table.columns|
        && "date" in r.value.columns && "value" in r.value.columns
        && forall i :: 0 <= i < |r.value.columns| ==>
             r.value.columns[i] == Text.Lower(Text.Strip(table.columns[i])) && Text.Trimmed(r.value.columns[i])
  {
    var r := ParseCsvContents(contents, decode, toDatetime);
    if r.Ok? {
      var table := decode(SplitContents(contents).value);
      var columns := r.value.columns;
      forall i | 0 <= i < |columns|
        ensures columns[i] == Text.Lower(Text.Strip(table.columns[i])) && Text.Trimmed(columns[i])
      {
        NormaliseNameCanonical(table.columns[i]);
      }
    }
  }

  /** Sorting keeps every converted row whole: it has one cell per field,
      and the date column holds its parsed date. */
  lemma SortedRowsCarryTheirDate(width: nat, rows: seq<seq<string>>, d: nat, toDatetime: string -> Timestamp)
    requires d < width
    requires forall i :: 0 <= i < |rows| ==> |rows[i]| == width
    ensures forall row :: row in SortedRows(rows, d, toDatetime) ==>
      |row.cells| == width && row.cells[d] == Stamp(row.date)
  {
    var converted := ConvertRows(rows, d, toDatetime);
    forall row | row in SortedRows(rows, d, toDatetime)
      ensures |row.cells| == width && row.cells[d] == Stamp(row.date)
    {
      assert row in multiset(converted);
      var i :| 0 <= i < |converted| && converted[i] == row;
      assert row == ConvertRow(rows[i], d, toDatetime);
    }
  }

  /** Every row of a parsed frame has one cell per column, and its date cell
      holds the date the rows are sorted by. */
  lemma ParsedRowsCarryTheirDate(contents: string, decode: string -> CsvTable, toDatetime: string -> Timestamp)
    ensures
      var r := ParseCsvContents(contents, decode, toDatetime);
      r.Ok? ==> forall row :: row in r.value.rows ==>
        |row.cells| == |r.value.columns| && row.cells[ColumnIndex(r.value.columns, "date")] == Stamp(row.date)
  {
    if ParseCsvContents(contents, decode, toDatetime).Ok? {
      var table := decode(SplitContents(contents).value);
      var columns := NormaliseColumns(table.columns);
      var d := ColumnIndex(columns, "date");
      assert ParseCsvContents(contents, decode, toDatetime) == FrameOf(table, toDatetime);
      assert FrameOf(table, toDatetime) == Ok(FrameWithHeader(columns, table.rows, toDatetime));
      SortedRowsCarryTheirDate(|columns|, table.rows, d, toDatetime);
    }
  }
}

=== FILE: ensemble.dfy ===
/** `ensemble_forecasts`: the elementwise arithmetic mean of several forecasts. */
module Ensemble {
  import opened Wrappers
  import opened TimeSeries

  /** Left-to-right sum, the order in which Python's `sum` folds. */
  function Sum(xs: seq<real>): real {
    if xs == [] then 0.0 else Sum(xs[..|xs| - 1]) + xs[|xs| - 1]
  }

  function Min(xs: seq<real>): (m: real)
    requires |xs| > 0
    ensures m in xs
    ensures forall i :: 0 <= i < |xs| ==> m <= xs[i]
  {
    if |xs| == 1 then xs[0]
    else
      var m := Min(xs[1..]);
      assert forall i :: 1 <= i < |xs| ==> xs[i] == xs[1..][i - 1];
      if xs[0] <= m then xs[0] else m
  }

  function Max(xs: seq<real>): (m: real)
    requires |xs| > 0
    ensures m in xs
    ensures forall i :: 0 <= i < |xs| ==> xs[i] <= m
  {
    if |xs| == 1 then xs[0]
    else
      var m := Max(xs[1..]);
      assert forall i :: 1 <= i < |xs| ==> xs[i] == xs[1..][i - 1];
      if m <= xs[0] then xs[0] else m
  }

  /** A sum of terms that are each at least `lo` is at least `n * lo`. */
  lemma {:induction false} SumAtLeast(xs: seq<real>, lo: real)
    requires forall i :: 0 <= i < |xs| ==> lo <= xs[i]
    ensures (|xs| as real) * lo <= Sum(xs)
  {
    if xs != [] {
      SumAtLeast(xs[..|xs| - 1], lo);
    }
  }

  /** A sum of terms that are each at most `hi` is at most `n * hi`. */
  lemma {:induction false} SumAtMost(xs: seq<real>, hi: real)
    requires forall i :: 0 <= i < |xs| ==> xs[i] <= hi
    ensures Sum(xs) <= (|xs| as real) * hi
  {
    if xs != [] {
      SumAtMost(xs[..|xs| - 1], hi);
    }
  }

  /** A sum of `n` copies of `v` is `n * v`. */
  lemma {:induction false} SumConstant(xs: seq<real>, v: real)
    requires forall i :: 0 <= i < |xs| ==> xs[i] == v
    ensures Sum(xs) == (|xs| as real) * v
  {
    if xs != [] {
      SumConstant(xs[..|xs| - 1], v);
    }
  }

  /** Scaling by a positive count reflects order. */
  lemma ScaledAtLeast(n: real, v: real, lo: real)
    requires n > 0.0 && n * lo <= n * v
    ensures lo <= v
  {
  }

  lemma ScaledAtMost(n: real, v: real, hi: real)
    requires n > 0.0 && n * v <= n * hi
    ensures v <= hi
  {
  }

  /** A value whose `n`-fold is the `n`-fold of `v` is `v`. */
  lemma MeanOfConstant(n: real, sum: real, v: real, m: real)
    requires n > 0.0 && n * m == sum && sum == n * v
    ensures m == v
  {
    ScaledAtLeast(n, m, v);
    ScaledAtMost(n, m, v);
  }

  /** The forecasts' values at index `i`, one per forecast. */
  function Column(fs: seq<Series>, i: nat): seq<real>
    requires forall j :: 0 <= j < |fs| ==> i < |fs[j]|
  {
    seq(|fs|, j requires 0 <= j < |fs| => fs[j][i].value)
  }

  /** Every forecast has the time index of the first. */
  predicate SharedIndex(fs: seq<Series>)
    requires |fs| > 0
  {
    forall j :: 0 <= j < |fs| ==> Times(fs[j]) == Times(fs[0])
  }

  /** Every forecast has as many points as the first: the only agreement
      series arithmetic demands of its operands, which it combines position
      by position under the left operand's time index. */
  predicate SameLength(fs: seq<Series>)
    requires |fs| > 0
  {
    forall j :: 0 <= j < |fs| ==> |fs[j]| == |fs[0]|
  }

  /** `ensemble_forecasts`: an empty list is an error, so is a list whose
      series differ in length; otherwise the result keeps the first series'
      time index, and its value at each position is the inputs' sum there
      divided by the number of inputs. Series on one shared time index are
      always accepted. */
  function EnsembleForecasts(fs: seq<Series>): (r: Result<Series>)
    ensures fs == [] ==> r == Err(NoForecasts)
    ensures fs != [] && !SameLength(fs) ==> r == Err(MismatchedLengths)
    ensures r.Ok? <==> fs != [] && SameLength(fs)
    ensures fs != [] && SharedIndex(fs) ==> r.Ok?
    ensures r.Ok? ==> Times(r.value) == Times(fs[0])
    ensures r.Ok? ==> forall j :: 0 <= j < |fs| ==> |fs[j]| == |r.value|
    ensures r.Ok? ==> forall i :: 0 <= i < |r.value| ==>
      (|fs| as real) * r.value[i].value == Sum(Column(fs, i))
  {
    if fs == [] then Err(NoForecasts)
    else
      assert SharedIndex(fs) ==> SameLength(fs) by {
        if SharedIndex(fs) {
          forall j | 0 <= j < |fs| ensures |fs[j]| == |fs[0]| {
            assert |Times(fs[j])| == |Times(fs[0])|;
          }
        }
      }
      if !SameLength(fs) then Err(MismatchedLengths)
      else
        Ok(seq(|fs[0]|, i requires 0 <= i < |fs[0]| =>
          Point(fs[0][i].time, Sum(Column(fs, i)) / (|fs| as real))))
  }

  /** Timestamps play no part in the arithmetic: two one-point series at
      different times average under the first one's time. */
  lemma EnsembleKeepsFirstIndex(t0: Timestamp, t1: Timestamp)
    ensures EnsembleForecasts([[Point(t0, 1.0)], [Point(t1, 3.0)]]) == Ok([Point(t0, 2.0)])
  {
    var fs := [[Point(t0, 1.0)], [Point(t1, 3.0)]];
    assert SameLength(fs);
    var r := EnsembleForecasts(fs).value;
    assert Column(fs, 0) == [1.0, 3.0];
    assert Sum([1.0, 3.0]) == 4.0 by {
      assert [1.0, 3.0][..1] == [1.0];
      assert [1.0][..0] == [];
    }
    assert |r| == 1 && 2.0 * r[0].value == 4.0;
    assert r[0].time == Times(r)[0] == Times(fs[0])[0] == t0;
    assert r == [Point(t0, 2.0)];
  }

  /** At each index the mean lies between the smallest and the largest input. */
  lemma EnsembleWithinRange(fs: seq<Series>)
    requires EnsembleForecasts(fs).Ok?
    ensures forall i :: 0 <= i < |EnsembleForecasts(fs).value| ==>
      Min(Column(fs, i)) <= EnsembleForecasts(fs).value[i].value <= Max(Column(fs, i))
  {
    var r := EnsembleForecasts(fs).value;
    forall i | 0 <= i < |r|
      ensures Min(Column(fs, i)) <= r[i].value <= Max(Column(fs, i))
    {
      MeanOfColumn(Column(fs, i), r[i].value);
    }
  }

  /** A value whose `n`-fold is the sum of `n` terms lies between their extremes. */
  lemma MeanOfColumn(col: seq<real>, v: real)
    requires |col| > 0
    requires (|col| as real) * v == Sum(col)
    ensures Min(col) <= v <= Max(col)
  {
    MeanAtLeastMin(col, v);
    MeanAtMostMax(col, v);
  }

  lemma {:induction false} MeanAtLeastMin(col: seq<real>, v: real)
    requires |col| > 0
    requires (|col| as real) * v == Sum(col)
    ensures Min(col) <= v
  {
    SumAtLeast(col, Min(col));
    ScaledAtLeast(|col| as real, v, Min(col));
  }

  lemma {:induction false} MeanAtMostMax(col: seq<real>, v: real)
    requires |col| > 0
    requires (|col| as real) * v == Sum(col)
    ensures v <= Max(col)
  {
    SumAtMost(col, Max(col));
    ScaledAtMost(|col| as real, v, Max(col));
  }

  /** Averaging copies of one forecast gives that forecast back. */
  lemma EnsembleOfCopies(fs: seq<Series>, s: Series)
    requires |fs| > 0
    requires forall j :: 0 <= j < |fs| ==> fs[j] == s
    ensures EnsembleForecasts(fs) == Ok(s)
  {
    assert SameLength(fs);
    assert EnsembleForecasts(fs).Ok?;
    var r := EnsembleForecasts(fs).value;
    assert |r| == |s|;
    forall i | 0 <= i < |r|
      ensures r[i] == s[i]
    {
      var col := Column(fs, i);
      assert (|fs| as real) * r[i].value == Sum(col);
      assert forall j :: 0 <= j < |col| ==> col[j] == s[i].value;
      SumConstant(col, s[i].value);
      assert |col| == |fs|;
      MeanOfConstant(|fs| as real, Sum(col), s[i].value, r[i].value);
      assert r[i].time == Times(r)[i] == Times(fs[0])[i] == s[i].time;
    }
    assert r == s;
  }

  /** The ensemble of a single forecast is that forecast. */
  lemma EnsembleOfOne(s: Series)
    ensures EnsembleForecasts([s]) == Ok(s)
  {
    EnsembleOfCopies([s], s);
  }
}

=== FILE: forecast.dfy ===
/** The forecasting orchestrator: `Forecast.fit_and_forecast` and the two
    option helpers the dashboard calls. */
module Forecast {
  import opened Wrappers
  import opened TimeSeries
  import Text
  import opened ModelFactory
  import opened Ensemble
  import Seqs

  /** The model-list entry that stands for ensembling rather than for a model. */
  const EnsembleOption := "ensemble"

  /** The name under which combined results are reported. */
  const EnsembleLabel := "Ensemble"

  /** One row of the metrics table: a forecast's scores against the truth. */
  datatype MetricRecord = MetricRecord(model: string, mape: real, rmse: real)

  datatype NamedSeries = NamedSeries(name: string, series: Series)

  /** A `Forecast` object: the chosen model names and the ensemble flag. */
  datatype Forecaster = Forecaster(models: seq<string>, ensemble: bool)

  /** The dictionary `fit_and_forecast` returns; `truth` is the unknown future. */
  datatype Bundle = Bundle(
    metrics: seq<MetricRecord>,
    valForecasts: seq<NamedSeries>,
    valTruth: Series,
    forecasts: seq<NamedSeries>,
    truth: Option<Series>)

  predicate IsEnsembleOption(name: string) {
    Text.Lower(name) == EnsembleOption
  }

  /** Every name lowercases to a registry key. */
  predicate AllRegistered(names: seq<string>) {
    forall i :: 0 <= i < |names| ==> Text.Lower(names[i]) in Keys()
  }

  /** The names the validation loop treats as models, in their order. */
  function RealModels(names: seq<string>): (r: seq<string>)
    ensures forall x :: x in r <==> x in names && !IsEnsembleOption(x)
    ensures |r| <= |names|
    ensures (forall i :: 0 <= i < |names| ==> !IsEnsembleOption(names[i])) ==> r == names
  {
    if names == [] then []
    else
      var rest := RealModels(names[1..]);
      assert forall x :: x in names <==> x == names[0] || x in names[1..];
      if IsEnsembleOption(names[0]) then rest else [names[0]] + rest
  }

  /** A single name is kept exactly when it is not the ensemble option. */
  lemma RealModelsOne(name: string)
    ensures RealModels([name]) == (if IsEnsembleOption(name) then [] else [name])
  {
    assert [name][1..] == [];
  }

  /** Filtering a name followed by more names. */
  lemma RealModelsCons(x: string, t: seq<string>)
    ensures RealModels([x] + t) == (if IsEnsembleOption(x) then [] else [x]) + RealModels(t)
  {
    assert ([x] + t)[1..] == t;
  }

  /** The filter keeps the order: filtering a concatenation concatenates the filtered parts. */
  lemma {:induction false} RealModelsAppend(a: seq<string>, b: seq<string>)
    ensures RealModels(a + b) == RealModels(a) + RealModels(b)
  {
    if a == [] {
      assert a + b == b;
    } else {
      var t := a[1..];
      var head := if IsEnsembleOption(a[0]) then [] else [a[0]];
      Seqs.HeadSplit(a, b);
      RealModelsAppend(t, b);
      RealModelsCons(a[0], t + b);
      RealModelsCons(a[0], t);
      Seqs.AppendAssociates(head, RealModels(t), RealModels(b));
    }
  }


  /** A registered name is never the ensemble option. */
  lemma RegisteredIsReal(names: seq<string>)
    requires AllRegistered(names)
    ensures RealModels(names) == names
  {
    ModelFactory.EnsembleIsNotAModel();
    forall i | 0 <= i < |names|
      ensures !IsEnsembleOption(names[i])
    {
      assert Text.Lower(names[i]) in Keys();
    }
  }

  function SeriesOf(fs: seq<NamedSeries>): seq<Series> {
    seq(|fs|, i requires 0 <= i < |fs| => fs[i].series)
  }

  /** `int(0.8 * n)`: the number of points kept for training. It is the
      floor of four fifths of `n`, and leaves at least one point for
      validation whenever there is a point at all. */
  function SplitIndex(n: nat): (k: nat)
    ensures 5 * k <= 4 * n < 5 * k + 5
    ensures n > 0 ==> k < n
  {
    (4 * n) / 5
  }

  /** `ts[:split_idx], ts[split_idx:]`: the two parts put back together are
      the series, and on a series with increasing timestamps every training
      point precedes every validation point. */
  function Split(ts: Series): (parts: (Series, Series))
    ensures parts.0 + parts.1 == ts
    ensures |parts.0| == SplitIndex(|ts|)
    ensures Increasing(ts) ==> forall i, j :: 0 <= i < |parts.0| && 0 <= j < |parts.1| ==>
      parts.0[i].time < parts.1[j].time
  {
    var k := SplitIndex(|ts|);
    assert ts[..k] + ts[k..] == ts;
    assert forall j :: 0 <= j < |ts| - k ==> ts[k..][j] == ts[k + j];
    (ts[..k], ts[k..])
  }

  /** The metrics record of forecast `f`, named `name`, scored against `truth`. */
  function Score(lib: Library, name: string, truth: Series, f: Series): MetricRecord {
    MetricRecord(name, lib.mape(truth, f), lib.rmse(truth, f))
  }

  datatype Validation = Validation(forecasts: seq<NamedSeries>, metrics: seq<MetricRecord>)

  /** `v` holds, for each of `models` in order, the forecast of that model
      fitted on `train` over `|val|` steps and its scores against `val`. */
  predicate ValidatedEach(lib: Library, models: seq<string>, train: Series, val: Series, v: Validation) {
    && AllRegistered(models)
    && |v.forecasts| == |v.metrics| == |models|
    && (forall i :: 0 <= i < |models| ==>
          v.forecasts[i] == NamedSeries(models[i], ModelForecast(lib, models[i], train, |val|)))
    && (forall i :: 0 <= i < |v.metrics| ==>
          v.metrics[i] == Score(lib, v.forecasts[i].name, val, v.forecasts[i].series))
  }

  /** `e` is the error `get_model` raises for `names[i]`, the first name
      the validation loop does not skip and the registry rejects. */
  predicate RejectedInValidation(names: seq<string>, i: int, e: Error) {
    && 0 <= i < |names|
    && !IsEnsembleOption(names[i])
    && Text.Lower(names[i]) !in Keys()
    && e == UnsupportedModel(Text.Lower(names[i]))
    && (forall j :: 0 <= j < i ==> IsEnsembleOption(names[j]) || Text.Lower(names[j]) in Keys())
  }

  lemma AllRegisteredTail(names: seq<string>)
    requires AllRegistered(names) && names != []
    ensures AllRegistered(names[1..])
  {
    assert forall i :: 0 <= i < |names| - 1 ==> names[1..][i] == names[i + 1];
  }

  /** The validation result the loop should produce for registered
      `models`, built one model at a time: its forecast fitted on `train`
      over `|val|` steps, and its scores against `val`. */
  function Validated(lib: Library, models: seq<string>, train: Series, val: Series): (v: Validation)
    requires AllRegistered(models)
    ensures |v.forecasts| == |v.metrics| == |models|
    decreases |models|
  {
    if models == [] then Validation([], [])
    else
      AllRegisteredTail(models);
      var rest := Validated(lib, models[1..], train, val);
      var f := ModelForecast(lib, models[0], train, |val|);
      Validation([NamedSeries(models[0], f)] + rest.forecasts, [Score(lib, models[0], val, f)] + rest.metrics)
  }

  /** Position `i` of the reference result belongs to `models[i]`. */
  lemma {:induction false} ValidatedAt(lib: Library, models: seq<string>, train: Series, val: Series, i: nat)
    requires AllRegistered(models) && i < |models|
    ensures Validated(lib, models, train, val).forecasts[i]
      == NamedSeries(models[i], ModelForecast(lib, models[i], train, |val|))
    ensures Validated(lib, models, train, val).metrics[i]
      == Score(lib, models[i], val, ModelForecast(lib, models[i], train, |val|))
  {
    if i > 0 {
      AllRegisteredTail(models);
      ValidatedAt(lib, models[1..], train, val, i - 1);
      assert models[1..][i - 1] == models[i];
    }
  }

  /** The reference result meets the position-wise description. */
  lemma ValidatedIsEach(lib: Library, models: seq<string>, train: Series, val: Series)
    requires AllRegistered(models)
    ensures ValidatedEach(lib, models, train, val, Validated(lib, models, train, val))
  {
    var v := Validated(lib, models, train, val);
    forall i | 0 <= i < |models|
      ensures v.forecasts[i] == NamedSeries(models[i], ModelForecast(lib, models[i], train, |val|))
      ensures v.metrics[i] == Score(lib, v.forecasts[i].name, val, v.forecasts[i].series)
    {
      ValidatedAt(lib, models, train, val, i);
    }
  }

  /** A name rejected in the tail of a list is rejected, one place later, in the list. */
  lemma RejectedShifts(names: seq<string>, i: int, e: Error)
    requires names != [] && RejectedInValidation(names[1..], i, e)
    requires IsEnsembleOption(names[0]) || Text.Lower(names[0]) in Keys()
    ensures RejectedInValidation(names, i + 1, e)
  {
    assert names[1..][i] == names[i + 1];
    assert forall j :: 0 < j <= i ==> names[1..][j - 1] == names[j];
  }

  lemma AllRegisteredCons(name: string, names: seq<string>)
    ensures AllRegistered([name] + names) <==> Text.Lower(name) in Keys() && AllRegistered(names)
  {
    var all := [name] + names;
    assert all[0] == name;
    assert forall i :: 0 <= i < |names| ==> all[i + 1] == names[i];
  }

  /** An error from the loop over the tail of a list whose head is skipped
      or registered is the error of the first rejected name of the list. */
  lemma ValidationErrorShifts(names: seq<string>, e: Error)
    requires names != [] && (IsEnsembleOption(names[0]) || Text.Lower(names[0]) in Keys())
    requires exists i :: RejectedInValidation(names[1..], i, e)
    ensures exists i :: RejectedInValidation(names, i, e)
  {
    var i :| RejectedInValidation(names[1..], i, e);
    RejectedShifts(names, i, e);
  }

  /** The validation loop: every name but the ensemble option is built,
      fitted on `train` and asked for `|val|` steps; its forecast and its
      scores against `val` are recorded in list order. An unregistered name
      aborts the loop with that name's error. */
  function ValidationPhase(lib: Library, names: seq<string>, train: Series, val: Series): (r: Result<Validation>)
    ensures r.Ok? <==> AllRegistered(RealModels(names))
    ensures r.Err? ==> exists i :: RejectedInValidation(names, i, r.error)
    ensures r.Ok? ==> r.value == Validated(lib, RealModels(names), train, val)
    decreases |names|
  {
    if names == [] then Ok(Validation([], []))
    else
      var tail := names[1..];
      var rest := ValidationPhase(lib, tail, train, val);
      if IsEnsembleOption(names[0]) then
        if rest.Err? then
          ValidationErrorShifts(names, rest.error);
          rest
        else rest
      else
        var chosen := RealModels(names);
        assert chosen == [names[0]] + RealModels(tail);
        AllRegisteredCons(names[0], RealModels(tail));
        match GetModel(names[0])
        case Err(e) =>
          assert RejectedInValidation(names, 0, e);
          Err(e)
        case Ok(model) =>
          match rest
          case Err(e) =>
            ValidationErrorShifts(names, e);
            Err(e)
          case Ok(v) =>
            var f := Predict(lib, Fit(model, train), |val|);
            assert f == ModelForecast(lib, names[0], train, |val|);
            assert chosen[1..] == RealModels(tail);
            Ok(Validation([NamedSeries(names[0], f)] + v.forecasts, [Score(lib, names[0], val, f)] + v.metrics))
  }

  /** Forecasts fitted on one series over one horizon share their time index. */
  lemma ForecastsShareIndex(lib: Library, models: seq<string>, train: Series, h: nat, fs: seq<NamedSeries>)
    requires AllRegistered(models) && |models| > 0 && |fs| == |models|
    requires forall i :: 0 <= i < |models| ==> fs[i].series == ModelForecast(lib, models[i], train, h)
    ensures SharedIndex(SeriesOf(fs))
    ensures forall i :: 0 <= i < |fs| ==> |fs[i].series| == h
  {
    forall i | 0 <= i < |fs|
      ensures Times(SeriesOf(fs)[i]) == FutureIndex(lib, train, h)
    {
      assert SeriesOf(fs)[i] == ModelForecast(lib, models[i], train, h);
    }
  }

  /** `w` is what the validation stage reports for `chosen`: one validated
      entry per model in order, then, exactly when `extra` holds, an
      `'Ensemble'` entry whose forecast is the mean of the model forecasts;
      every metrics record names and scores the forecast at its position. */
  predicate ValidationReport(lib: Library, chosen: seq<string>, extra: bool, train: Series, val: Series, w: Validation) {
    && |w.forecasts| == |w.metrics| == |chosen| + (if extra then 1 else 0)
    && ValidatedEach(lib, chosen, train, val, Validation(w.forecasts[..|chosen|], w.metrics[..|chosen|]))
    && (forall i :: 0 <= i < |w.metrics| ==>
          w.metrics[i] == Score(lib, w.forecasts[i].name, val, w.forecasts[i].series))
    && (extra ==>
          && w.forecasts[|chosen|].name == EnsembleLabel
          && EnsembleForecasts(SeriesOf(w.forecasts[..|chosen|])) == Ok(w.forecasts[|chosen|].series))
  }

  lemma ReportWithoutEnsemble(lib: Library, chosen: seq<string>, train: Series, val: Series, v: Validation)
    requires ValidatedEach(lib, chosen, train, val, v)
    ensures ValidationReport(lib, chosen, false, train, val, v)
  {
    assert v.forecasts[..|chosen|] == v.forecasts && v.metrics[..|chosen|] == v.metrics;
  }

  /** The mean of more than one validated forecast exists, and appending it
      with its scores gives the report with the ensemble entry. */
  lemma ReportWithEnsemble(lib: Library, chosen: seq<string>, train: Series, val: Series, v: Validation)
    requires ValidatedEach(lib, chosen, train, val, v) && |chosen| > 1
    ensures EnsembleForecasts(SeriesOf(v.forecasts)).Ok?
    ensures
      var e := EnsembleForecasts(SeriesOf(v.forecasts)).value;
      ValidationReport(lib, chosen, true, train, val,
        Validation(v.forecasts + [NamedSeries(EnsembleLabel, e)], v.metrics + [Score(lib, EnsembleLabel, val, e)]))
  {
    ForecastsShareIndex(lib, chosen, train, |val|, v.forecasts);
    var e := EnsembleForecasts(SeriesOf(v.forecasts)).value;
    var w := Validation(v.forecasts + [NamedSeries(EnsembleLabel, e)], v.metrics + [Score(lib, EnsembleLabel, val, e)]);
    assert w.forecasts[..|chosen|] == v.forecasts && w.metrics[..|chosen|] == v.metrics;
    forall i | 0 <= i < |w.metrics|
      ensures w.metrics[i] == Score(lib, w.forecasts[i].name, val, w.forecasts[i].series)
    {
      if i < |chosen| {
        assert w.metrics[i] == v.metrics[i] && w.forecasts[i] == v.forecasts[i];
      }
    }
  }

  /** The validation stage of `fit_and_forecast`: the validation loop, then the
      optional ensemble entry, appended exactly when the flag is set and
      more than one model was validated. */
  function Validate(lib: Library, f: Forecaster, train: Series, val: Series): (r: Result<Validation>)
    ensures r.Ok? <==> AllRegistered(RealModels(f.models))
    ensures r.Err? ==> exists i :: RejectedInValidation(f.models, i, r.error)
    ensures r.Ok? ==>
      var chosen := RealModels(f.models);
      ValidationReport(lib, chosen, f.ensemble && |chosen| > 1, train, val, r.value)
  {
    var v :- ValidationPhase(lib, f.models, train, val);
    var chosen := RealModels(f.models);
    ValidatedIsEach(lib, chosen, train, val);
    if f.ensemble && |v.forecasts| > 1 then
      ReportWithEnsemble(lib, chosen, train, val, v);
      var e := EnsembleForecasts(SeriesOf(v.forecasts)).value;
      Ok(Validation(v.forecasts + [NamedSeries(EnsembleLabel, e)], v.metrics + [Score(lib, EnsembleLabel, val, e)]))
    else
      ReportWithoutEnsemble(lib, chosen, train, val, v);
      Ok(v)
  }

  /** `e` is the error `get_model` raises for `names[i]`, the first name
      the registry rejects. */
  predicate RejectedInRetrain(names: seq<string>, i: int, e: Error) {
    && 0 <= i < |names|
    && Text.Lower(names[i]) !in Keys()
    && e == UnsupportedModel(Text.Lower(names[i]))
    && (forall j :: 0 <= j < i ==> Text.Lower(names[j]) in Keys())
  }

  /** `fs` holds, for each of `models` in order, the forecast of that model
      fitted on `full` over `h` steps. */
  predicate RetrainedEach(lib: Library, models: seq<string>, full: Series, h: nat, fs: seq<NamedSeries>) {
    && AllRegistered(models)
    && |fs| == |models|
    && forall i :: 0 <= i < |models| ==> fs[i] == NamedSeries(models[i], ModelForecast(lib, models[i], full, h))
  }

  lemma RetrainRejectedShifts(names: seq<string>, i: int, e: Error)
    requires names != [] && RejectedInRetrain(names[1..], i, e)
    requires Text.Lower(names[0]) in Keys()
    ensures RejectedInRetrain(names, i + 1, e)
  {
    assert names[1..][i] == names[i + 1];
    assert forall j :: 0 < j <= i ==> names[1..][j - 1] == names[j];
  }

  lemma RetrainedCons(lib: Library, name: string, models: seq<string>, full: Series, h: nat, fs: seq<NamedSeries>)
    requires Text.Lower(name) in Keys()
    requires RetrainedEach(lib, models, full, h, fs)
    ensures RetrainedEach(lib, [name] + models, full, h, [NamedSeries(name, ModelForecast(lib, name, full, h))] + fs)
  {
    var all := [name] + models;
    var r := [NamedSeries(name, ModelForecast(lib, name, full, h))] + fs;
    forall i | 0 <= i < |all|
      ensures Text.Lower(all[i]) in Keys()
      ensures r[i] == NamedSeries(all[i], ModelForecast(lib, all[i], full, h))
    {
      if i > 0 {
        assert all[i] == models[i - 1] && r[i] == fs[i - 1];
      }
    }
  }

  /** The full-retrain loop: every name, the ensemble option included, is
      built, fitted on the whole series and asked for `h` steps, in list
      order. An unregistered name aborts the loop with that name's error. */
  function RetrainPhase(lib: Library, names: seq<string>, full: Series, h: nat): (r: Result<seq<NamedSeries>>)
    ensures r.Ok? <==> AllRegistered(names)
    ensures r.Err? ==> exists i :: RejectedInRetrain(names, i, r.error)
    ensures r.Ok? ==> RetrainedEach(lib, names, full, h, r.value)
    decreases |names|
  {
    if names == [] then Ok([])
    else
      var tail := names[1..];
      var rest := RetrainPhase(lib, tail, full, h);
      assert names == [names[0]] + tail;
      AllRegisteredCons(names[0], tail);
      match GetModel(names[0])
      case Err(e) =>
        assert RejectedInRetrain(names, 0, e);
        Err(e)
      case Ok(model) =>
        match rest
        case Err(e) =>
          assert exists i :: RejectedInRetrain(names, i, e) by {
            var i :| RejectedInRetrain(tail, i, e);
            RetrainRejectedShifts(names, i, e);
          }
          Err(e)
        case Ok(fs) =>
          var f := Predict(lib, Fit(model, full), h);
          assert f == ModelForecast(lib, names[0], full, h);
          RetrainedCons(lib, names[0], tail, full, h, fs);
          Ok([NamedSeries(names[0], f)] + fs)
  }

  /** `fs` is what the full-retrain stage reports for `names`: one retrained
      forecast per name in order, then, exactly when `extra` holds, an
      `'Ensemble'` entry holding their mean; every forecast has `h` points. */
  predicate RetrainReport(lib: Library, names: seq<string>, extra: bool, full: Series, h: nat, fs: seq<NamedSeries>) {
    && |fs| == |names| + (if extra then 1 else 0)
    && RetrainedEach(lib, names, full, h, fs[..|names|])
    && (forall i :: 0 <= i < |fs| ==> |fs[i].series| == h)
    && (extra ==>
          && fs[|names|].name == EnsembleLabel
          && EnsembleForecasts(SeriesOf(fs[..|names|])) == Ok(fs[|names|].series))
  }

  lemma RetrainReportWithout(lib: Library, names: seq<string>, full: Series, h: nat, fs: seq<NamedSeries>)
    requires RetrainedEach(lib, names, full, h, fs)
    ensures RetrainReport(lib, names, false, full, h, fs)
  {
    assert fs[..|names|] == fs;
    forall i | 0 <= i < |fs|
      ensures |fs[i].series| == h
    {
      assert fs[i].series == ModelForecast(lib, names[i], full, h);
    }
  }

  /** The mean of more than one retrained forecast exists, and appending it
      gives the report with the ensemble entry. */
  lemma RetrainReportWith(lib: Library, names: seq<string>, full: Series, h: nat, fs: seq<NamedSeries>)
    requires RetrainedEach(lib, names, full, h, fs) && |names| > 1
    ensures EnsembleForecasts(SeriesOf(fs)).Ok?
    ensures RetrainReport(lib, names, true, full, h, fs + [NamedSeries(EnsembleLabel, EnsembleForecasts(SeriesOf(fs)).value)])
  {
    ForecastsShareIndex(lib, names, full, h, fs);
    var e := EnsembleForecasts(SeriesOf(fs)).value;
    var r := fs + [NamedSeries(EnsembleLabel, e)];
    assert r[..|names|] == fs;
    forall i | 0 <= i < |r|
      ensures |r[i].series| == h
    {
      if i < |fs| {
        assert r[i] == fs[i];
      }
    }
  }

  /** The full-retrain stage of `fit_and_forecast` over the names `names`: one forecast
      per name, of `h` steps after the whole series, then the ensemble entry
      exactly when the flag is set and more than one forecast exists. */
  function Retrain(lib: Library, names: seq<string>, ensemble: bool, full: Series, h: nat): (r: Result<seq<NamedSeries>>)
    ensures r.Ok? <==> AllRegistered(names)
    ensures r.Err? ==> exists i :: RejectedInRetrain(names, i, r.error)
    ensures r.Ok? ==> RetrainReport(lib, names, ensemble && |names| > 1, full, h, r.value)
  {
    var fs :- RetrainPhase(lib, names, full, h);
    if ensemble && |fs| > 1 then
      RetrainReportWith(lib, names, full, h, fs);
      Ok(fs + [NamedSeries(EnsembleLabel, EnsembleForecasts(SeriesOf(fs)).value)])
    else
      RetrainReportWithout(lib, names, full, h, fs);
      Ok(fs)
  }

  /** `fit_and_forecast` as written: the validation stage on the 80% split,
      then the full-retrain stage over the model list exactly as given. The
      bundle carries the validation part as `val_truth` and no future truth. */
  function FitAndForecast(lib: Library, f: Forecaster, ts: Series, nDays: nat): (r: Result<Bundle>)
    ensures r.Ok? <==> AllRegistered(f.models)
    ensures r.Err? ==>
      || (exists i :: RejectedInValidation(f.models, i, r.error))
      || (AllRegistered(RealModels(f.models)) && exists i :: RejectedInRetrain(f.models, i, r.error))
    ensures r.Ok? ==>
      var b := r.value;
      var (train, val) := Split(ts);
      var extra := f.ensemble && |f.models| > 1;
      && b.valTruth == val
      && b.truth.None?
      && ValidationReport(lib, f.models, extra, train, val, Validation(b.valForecasts, b.metrics))
      && RetrainReport(lib, f.models, extra, ts, nDays, b.forecasts)
  {
    var (train, val) := Split(ts);
    var v :- Validate(lib, f, train, val);
    var forecasts :- Retrain(lib, f.models, f.ensemble, ts, nDays);
    RegisteredIsReal(f.models);
    Ok(Bundle(v.metrics, v.forecasts, val, forecasts, None))
  }

  /** The run stops at the first name it cannot build: when the first
      listed name is neither the ensemble option nor registered, the error
      names it, whatever follows. */
  lemma FirstUnknownNameReported(lib: Library, f: Forecaster, ts: Series, nDays: nat)
    requires |f.models| > 0 && !IsEnsembleOption(f.models[0]) && Text.Lower(f.models[0]) !in Keys()
    ensures FitAndForecast(lib, f, ts, nDays) == Err(UnsupportedModel(Text.Lower(f.models[0])))
  {
    var r := FitAndForecast(lib, f, ts, nDays);
    assert f.models[0] in RealModels(f.models);
    var i :| RejectedInValidation(f.models, i, r.error);
    assert i == 0;
  }

  /** A model list holding the ensemble option never produces a result:
      the validation loop skips the option but the full-retrain loop hands
      it to the registry, which rejects it. When every other name is
      registered, the error is the one for "ensemble". */
  lemma EnsembleOptionAborts(lib: Library, f: Forecaster, ts: Series, nDays: nat, k: nat)
    requires k < |f.models| && IsEnsembleOption(f.models[k])
    ensures FitAndForecast(lib, f, ts, nDays).Err?
    ensures AllRegistered(RealModels(f.models)) ==>
      FitAndForecast(lib, f, ts, nDays) == Err(UnsupportedModel(EnsembleOption))
  {
    ModelFactory.EnsembleIsNotAModel();
    assert Text.Lower(f.models[k]) !in Keys();
    if AllRegistered(RealModels(f.models)) {
      forall i | 0 <= i < |f.models| && !IsEnsembleOption(f.models[i])
        ensures Text.Lower(f.models[i]) in Keys()
      {
        assert f.models[i] in RealModels(f.models);
      }
      var parts := Split(ts);
      assert Validate(lib, f, parts.0, parts.1).Ok?;
      var r := Retrain(lib, f.models, f.ensemble, ts, nDays);
      var i :| RejectedInRetrain(f.models, i, r.error);
      assert IsEnsembleOption(f.models[i]);
      assert FitAndForecast(lib, f, ts, nDays) == Err(r.error);
    }
  }

  /** `fit_and_forecast` with the full-retrain loop skipping the ensemble
      option as the validation loop does. Both stages then report the same
      entries in the same order, and a list of registered names plus the
      option succeeds. */
  function FitAndForecastSkippingEnsemble(lib: Library, f: Forecaster, ts: Series, nDays: nat): (r: Result<Bundle>)
    ensures r.Ok? <==> AllRegistered(RealModels(f.models))
    ensures r.Err? ==> exists i :: RejectedInValidation(f.models, i, r.error)
    ensures r.Ok? ==>
      var b := r.value;
      var (train, val) := Split(ts);
      var chosen := RealModels(f.models);
      var extra := f.ensemble && |chosen| > 1;
      && b.valTruth == val
      && b.truth.None?
      && ValidationReport(lib, chosen, extra, train, val, Validation(b.valForecasts, b.metrics))
      && RetrainReport(lib, chosen, extra, ts, nDays, b.forecasts)
      && (forall i :: 0 <= i < |b.forecasts| ==> b.valForecasts[i].name == b.forecasts[i].name)
  {
    var (train, val) := Split(ts);
    var v :- Validate(lib, f, train, val);
    var chosen := RealModels(f.models);
    var forecasts := Retrain(lib, chosen, f.ensemble, ts, nDays).value;
    StagesAgreeOnNames(lib, chosen, f.ensemble && |chosen| > 1, train, val, ts, nDays, v, forecasts);
    Ok(Bundle(v.metrics, v.forecasts, val, forecasts, None))
  }

  lemma ValidationReportNames(lib: Library, chosen: seq<string>, extra: bool, train: Series, val: Series, v: Validation)
    requires ValidationReport(lib, chosen, extra, train, val, v)
    ensures forall i :: 0 <= i < |chosen| ==> v.forecasts[i].name == chosen[i]
  {
    var k := |chosen|;
    forall i | 0 <= i < k
      ensures v.forecasts[i].name == chosen[i]
    {
      assert v.forecasts[..k][i] == v.forecasts[i];
    }
  }

  lemma RetrainReportNames(lib: Library, names: seq<string>, extra: bool, full: Series, h: nat, fs: seq<NamedSeries>)
    requires RetrainReport(lib, names, extra, full, h, fs)
    ensures forall i :: 0 <= i < |names| ==> fs[i].name == names[i]
  {
    var k := |names|;
    forall i | 0 <= i < k
      ensures fs[i].name == names[i]
    {
      assert fs[..k][i] == fs[i];
    }
  }

  /** Validation entries and future forecasts built from the same list of
      models, with the ensemble entry in both or in neither, carry the same
      names in the same order. */
  lemma StagesAgreeOnNames(lib: Library, chosen: seq<string>, extra: bool, train: Series, val: Series,
                           ts: Series, nDays: nat, v: Validation, fs: seq<NamedSeries>)
    requires ValidationReport(lib, chosen, extra, train, val, v)
    requires RetrainReport(lib, chosen, extra, ts, nDays, fs)
    ensures forall i :: 0 <= i < |fs| ==> v.forecasts[i].name == fs[i].name
  {
    ValidationReportNames(lib, chosen, extra, train, val, v);
    RetrainReportNames(lib, chosen, extra, ts, nDays, fs);
  }

  /** Without the ensemble option in the list, the two versions agree. */
  lemma SkippingEnsembleAgrees(lib: Library, f: Forecaster, ts: Series, nDays: nat)
    requires forall i :: 0 <= i < |f.models| ==> !IsEnsembleOption(f.models[i])
    ensures FitAndForecastSkippingEnsemble(lib, f, ts, nDays) == FitAndForecast(lib, f, ts, nDays)
  {
  }

  /** One registered model plus the ensemble option: the code as written
      fails, the version that skips the option in both loops succeeds. */
  lemma SkippingEnsembleAccepts(lib: Library, ts: Series, nDays: nat)
    ensures FitAndForecast(lib, Forecaster(["arima", "ensemble"], true), ts, nDays)
      == Err(UnsupportedModel("ensemble"))
    ensures FitAndForecastSkippingEnsemble(lib, Forecaster(["arima", "ensemble"], true), ts, nDays).Ok?
  {
    var names := ["arima", "ensemble"];
    assert Text.Lower("arima") == "arima" && Text.Lower("ensemble") == "ensemble";
    assert IsEnsembleOption(names[1]) && !IsEnsembleOption(names[0]);
    assert Keys()[0] == "arima";
    assert RealModels(names) == ["arima"] by {
      assert RealModels(names[1..]) == [];
    }
    EnsembleOptionAborts(lib, Forecaster(names, true), ts, nDays, 1);
  }

  /** `get_ensemble_options`: the option is offered exactly when more than
      one model is selected. */
  function GetEnsembleOptions(models: seq<string>): (r: seq<string>)
    ensures r == [EnsembleOption] <==> |models| > 1
    ensures r == [] <==> |models| <= 1
  {
    if |models| > 1 then [EnsembleOption] else []
  }

  /** `get_available_models`: the registry keys in order, followed by the
      ensemble option exactly when it is asked for. */
  function GetAvailableModels(includeEnsemble: bool): (r: seq<string>)
    ensures |r| == |Keys()| + (if includeEnsemble then 1 else 0)
    ensures r[..|Keys()|] == Keys()
    ensures EnsembleOption in r <==> includeEnsemble
  {
    ModelFactory.EnsembleIsNotAModel();
    var models := Keys();
    if includeEnsemble && |models| > 1 then models + [EnsembleOption] else models
  }

  /** When the dashboard offers the option and the user takes it, a run over
      registered models delivers an ensemble entry last in every list. */
  lemma OfferedEnsembleIsDelivered(lib: Library, models: seq<string>, ts: Series, nDays: nat)
    requires AllRegistered(models)
    requires GetEnsembleOptions(models) == [EnsembleOption]
    ensures FitAndForecast(lib, Forecaster(models, true), ts, nDays).Ok?
    ensures
      var b := FitAndForecast(lib, Forecaster(models, true), ts, nDays).value;
      && b.metrics[|b.metrics| - 1].model == EnsembleLabel
      && b.valForecasts[|b.valForecasts| - 1].name == EnsembleLabel
      && b.forecasts[|b.forecasts| - 1].name == EnsembleLabel
  {
    var parts := Split(ts);
    var b := FitAndForecast(lib, Forecaster(models, true), ts, nDays).value;
    var k := |models|;
    var w := Validation(b.valForecasts, b.metrics);
    assert ValidationReport(lib, models, true, parts.0, parts.1, w);
    assert RetrainReport(lib, models, true, ts, nDays, b.forecasts);
    assert |w.metrics| == |w.forecasts| == k + 1 && w.forecasts[k].name == EnsembleLabel;
    assert w.metrics[k] == Score(lib, w.forecasts[k].name, parts.1, w.forecasts[k].series);
  }

  /** With ensembling on, the dashboard's model list is the registry keys
      followed by the ensemble option, so the validation loop runs over
      registered names only. */
  lemma AvailableModelsAreRegistered()
    ensures var names := GetAvailableModels(true);
      && names == Keys() + [EnsembleOption]
      && IsEnsembleOption(names[|Keys()|])
      && RealModels(names) == Keys()
      && AllRegistered(RealModels(names))
  {
    var names := GetAvailableModels(true);
    var keys := Keys();
    ModelFactory.RegistryIsCanonical();
    assert names == keys + [EnsembleOption];
    assert Text.Lower(EnsembleOption) == EnsembleOption;
    assert AllRegistered(keys) by {
      forall i | 0 <= i < |keys| ensures Text.Lower(keys[i]) in Keys() {
        assert Text.Lower(keys[i]) == keys[i];
      }
    }
    RegisteredIsReal(keys);
    RealModelsAppend(keys, [EnsembleOption]);
    RealModelsOne(EnsembleOption);
  }

  /** Feeding the model list the dashboard builds when ensembling is on back
      into the orchestrator always fails on the "ensemble" entry. */
  lemma AvailableModelsWithOptionAbort(lib: Library, ensemble: bool, ts: Series, nDays: nat)
    ensures FitAndForecast(lib, Forecaster(GetAvailableModels(true), ensemble), ts, nDays)
      == Err(UnsupportedModel(EnsembleOption))
  {
    AvailableModelsAreRegistered();
    var names := GetAvailableModels(true);
    EnsembleOptionAborts(lib, Forecaster(names, ensemble), ts, nDays, |Keys()|);
  }
}

=== FILE: model_factory.dfy ===
/** The model registry and the fit/predict contract of the adapters it builds. */
module ModelFactory {
  import opened Wrappers
  import opened TimeSeries
  import Text

  /** The forecasting techniques the registry knows. */
  datatype ModelKind = Arima | Prophet | ExponentialSmoothing | Theta

  /** The registry: canonical lowercase name to model class, in insertion order. */
  const Registry: seq<(string, ModelKind)> := [
    ("arima", Arima),
    ("prophet", Prophet),
    ("exponentialsmoothing", ExponentialSmoothing),
    ("theta", Theta)
  ]

  function Keys(): seq<string> {
    seq(|Registry|, i requires 0 <= i < |Registry| => Registry[i].0)
  }

  /** The entry of `entries` whose name is `key`, if any (the first one). */
  function Find(entries: seq<(string, ModelKind)>, key: string): (r: Option<ModelKind>)
    ensures r.None? <==> forall i :: 0 <= i < |entries| ==> entries[i].0 != key
    ensures r.Some? ==> (key, r.value) in entries
  {
    if entries == [] then None
    else if entries[0].0 == key then Some(entries[0].1)
    else
      var r := Find(entries[1..], key);
      assert forall i :: 1 <= i < |entries| ==> entries[i] == entries[1..][i - 1];
      r
  }

  /** The registry has exactly four keys, each already lowercase, no two equal,
      so the lookup is a function of the lowercase name. */
  lemma RegistryIsCanonical()
    ensures |Keys()| == 4
    ensures forall k :: k in Keys() ==> Text.Lower(k) == k
    ensures forall i, j :: 0 <= i < j < |Keys()| ==> Keys()[i] != Keys()[j]
  {
  }

  /** A model adapter: its technique, and the series it was last fitted on. */
  datatype Model = Model(kind: ModelKind, fittedOn: Option<Series>)

  /** `get_model`: case-insensitive lookup that builds a fresh, unfitted model;
      a name whose lowercase is not a key is an error carrying that lowercase. */
  function GetModel(name: string): (r: Result<Model>)
    ensures r.Ok? <==> Text.Lower(name) in Keys()
    ensures r.Ok? ==> (Text.Lower(name), r.value.kind) in Registry && r.value.fittedOn.None?
    ensures r.Err? ==> r.error == UnsupportedModel(Text.Lower(name))
  {
    var key := Text.Lower(name);
    assert key in Keys() <==> exists i :: 0 <= i < |Registry| && Registry[i].0 == key by {
      if key in Keys() {
        var i :| 0 <= i < |Keys()| && Keys()[i] == key;
        assert Registry[i].0 == key;
      } else {
        assert forall i :: 0 <= i < |Registry| ==> Registry[i].0 == Keys()[i];
      }
    }
    match Find(Registry, key)
    case Some(kind) => Ok(Model(kind, None))
    case None => Err(UnsupportedModel(key))
  }

  /** The lookup cannot tell a name from its lowercase. */
  lemma GetModelIgnoresCase(name: string)
    ensures GetModel(name) == GetModel(Text.Lower(name))
  {
    Text.LowerIdempotent(name);
  }

  /** The pseudo-model name offered for ensembling is not a registry key. */
  lemma EnsembleIsNotAModel()
    ensures GetModel("ensemble") == Err(UnsupportedModel("ensemble"))
  {
    assert Text.Lower("ensemble") == "ensemble";
    assert "ensemble" !in Keys();
  }

  /** The statistics library behind the adapters, left uninterpreted. A model
      fitted on `train` and asked for `h` steps yields, at step `i`, the
      timestamp `nextTime(train, i)`, which continues the training index and
      so does not depend on the technique, and the value
      `predictValue(kind, train, h, i)`. The metrics are opaque scores of a
      forecast against the truth. */
  datatype Library = Library(
    nextTime: (Series, nat) -> Timestamp,
    predictValue: (ModelKind, Series, nat, nat) -> real,
    mape: (Series, Series) -> real,
    rmse: (Series, Series) -> real)

  /** `model.fit(train)`: the model keeps its technique and is now fitted
      on exactly `train`; a refit replaces whatever it was fitted on. */
  function Fit(m: Model, train: Series): (r: Model)
    ensures r.kind == m.kind
    ensures r.fittedOn == Some(train)
  {
    m.(fittedOn := Some(train))
  }

  /** The time index the library gives an `h`-step forecast after `train`. */
  function FutureIndex(lib: Library, train: Series, h: nat): seq<Timestamp> {
    seq(h, step requires 0 <= step < h => lib.nextTime(train, step))
  }

  /** `model.predict(h)` on a fitted model: exactly `h` points, on the time
      index that continues the training series, whatever the technique. */
  function Predict(lib: Library, m: Model, h: nat): (f: Series)
    requires m.fittedOn.Some?
    ensures |f| == h
    ensures Times(f) == FutureIndex(lib, m.fittedOn.value, h)
  {
    var train := m.fittedOn.value;
    seq(h, step requires 0 <= step < h =>
      Point(lib.nextTime(train, step), lib.predictValue(m.kind, train, h, step)))
  }

  /** The forecast a registered name produces: a fresh model, fitted on
      `train`, asked for `h` steps. */
  function ModelForecast(lib: Library, name: string, train: Series, h: nat): Series
    requires Text.Lower(name) in Keys()
  {
    Predict(lib, Fit(GetModel(name).value, train), h)
  }
}

=== FILE: seqs.dfy ===
/** Small facts about sequence concatenation, stated once so that the
    proofs about names, rows and strings can cite them cheaply. */
module Seqs {

  /** Concatenation associates. */
  lemma AppendAssociates<T>(x: seq<T>, y: seq<T>, z: seq<T>)
    ensures x + (y + z) == (x + y) + z
  {
  }

  /** A non-empty sequence is its head followed by its tail, also inside a concatenation. */
  lemma HeadSplit<T>(a: seq<T>, b: seq<T>)
    requires a != []
    ensures a == [a[0]] + a[1..] && a + b == [a[0]] + (a[1..] + b)
  {
    assert (a + b)[1..] == a[1..] + b;
  }

  /** A non-empty sequence holds its head and its tail. */
  lemma HeadTailMultiset<T>(s: seq<T>)
    requires s != []
    ensures multiset(s) == multiset(s[1..]) + multiset{s[0]}
  {
    assert s == [s[0]] + s[1..];
  }
}

=== FILE: text.dfy ===
/** The two string operations the core applies to names: `str.lower` and `str.strip`. */
module Text {

  predicate IsUpper(c: char) {
    'A' <= c <= 'Z'
  }

  /** `str.isspace`, for the code points below 256. */
  predicate IsSpace(c: char) {
    var n := c as int;
    n == 32 || 9 <= n <= 13 || 28 <= n <= 31 || n == 0x85 || n == 0xA0
  }

  predicate AllSpace(s: string) {
    forall i :: 0 <= i < |s| ==> IsSpace(s[i])
  }

  /** Neither end of `s` is whitespace. */
  predicate Trimmed(s: string) {
    s == [] || (!IsSpace(s[0]) && !IsSpace(s[|s| - 1]))
  }

  function LowerChar(c: char): char {
    if IsUpper(c) then (c as int + 32) as char else c
  }

  /** `str.lower` on ASCII letters: every upper-case letter becomes its
      lower-case partner, every other character is kept. */
  function Lower(s: string): (r: string)
    ensures |r| == |s|
    ensures forall i :: 0 <= i < |r| ==> !IsUpper(r[i])
    ensures forall i :: 0 <= i < |s| && !IsUpper(s[i]) ==> r[i] == s[i]
    ensures forall i :: 0 <= i < |s| && IsUpper(s[i]) ==> r[i] as int == s[i] as int + 32
  {
    seq(|s|, i requires 0 <= i < |s| => LowerChar(s[i]))
  }

  /** Lowering twice is lowering once. */
  lemma LowerIdempotent(s: string)
    ensures Lower(Lower(s)) == Lower(s)
  {
  }

  /** Lowering works character by character, so it distributes over concatenation. */
  lemma LowerAppend(a: string, b: string)
    ensures Lower(a + b) == Lower(a) + Lower(b)
  {
  }

  /** Whitespace is not a letter, so lowering leaves it alone. */
  lemma LowerKeepsSpace(s: string)
    requires AllSpace(s)
    ensures Lower(s) == s
  {
  }

  /** Whitespace is not a letter, so lowering keeps a trimmed string trimmed. */
  lemma LowerKeepsTrimmed(s: string)
    requires Trimmed(s)
    ensures Trimmed(Lower(s))
  {
  }

  /** Number of whitespace characters at the front of `s`. */
  function LeadingSpaces(s: string): (k: nat)
    ensures k <= |s|
    ensures forall i :: 0 <= i < k ==> IsSpace(s[i])
    ensures k < |s| ==> !IsSpace(s[k])
  {
    if |s| > 0 && IsSpace(s[0]) then 1 + LeadingSpaces(s[1..]) else 0
  }

  /** Number of whitespace characters at the back of `s`. */
  function TrailingSpaces(s: string): (k: nat)
    ensures k <= |s|
    ensures forall i :: |s| - k <= i < |s| ==> IsSpace(s[i])
    ensures k < |s| ==> !IsSpace(s[|s| - k - 1])
  {
    if |s| > 0 && IsSpace(s[|s| - 1]) then 1 + TrailingSpaces(s[..|s| - 1]) else 0
  }

  /** A slice of `s` with only whitespace cut off either side is `s` unpadded. */
  lemma PaddingIsSpace(s: string, lead: nat, trail: nat)
    requires lead + trail <= |s|
    requires forall i :: 0 <= i < lead ==> IsSpace(s[i])
    requires forall i :: |s| - trail <= i < |s| ==> IsSpace(s[i])
    ensures exists a, b :: s == a + s[lead..|s| - trail] + b && AllSpace(a) && AllSpace(b)
  {
    var a, b := s[..lead], s[|s| - trail..];
    assert s == a + s[lead..|s| - trail] + b;
    assert AllSpace(a) by {
      forall i | 0 <= i < lead ensures IsSpace(a[i]) {
        assert a[i] == s[i];
      }
    }
    assert AllSpace(b) by {
      forall i | 0 <= i < trail ensures IsSpace(b[i]) {
        assert b[i] == s[|s| - trail + i];
      }
    }
  }

  /** `str.strip()`: `s` with its surrounding whitespace removed; what is
      left has no whitespace at either end. */
  function Strip(s: string): (r: string)
    ensures Trimmed(r)
  {
    var lead := LeadingSpaces(s);
    if lead == |s| then []
    else
      var trail := TrailingSpaces(s);
      assert lead < |s| - trail;
      var r := s[lead..|s| - trail];
      assert r[0] == s[lead] && r[|r| - 1] == s[|s| - trail - 1];
      r
  }

  /** Only whitespace is removed: `s` is its stripped form padded on both
      sides with whitespace. */
  lemma StripUnpads(s: string)
    ensures exists a, b :: s == a + Strip(s) + b && AllSpace(a) && AllSpace(b)
  {
    var lead := LeadingSpaces(s);
    if lead == |s| {
      PaddingIsSpace(s, lead, 0);
      assert s[lead..|s|] == [];
    } else {
      var trail := TrailingSpaces(s);
      assert lead < |s| - trail;
      PaddingIsSpace(s, lead, trail);
    }
  }

  /** Stripping undoes any whitespace padding of a trimmed string. */
  lemma StripPadded(a: string, t: string, b: string)
    requires AllSpace(a) && AllSpace(b) && Trimmed(t)
    ensures Strip(a + t + b) == t
  {
    var s := a + t + b;
    var lead := LeadingSpaces(s);
    if t == [] {
      assert AllSpace(s) by {
        forall i | 0 <= i < |s| ensures IsSpace(s[i]) {
          if i < |a| { assert s[i] == a[i]; } else { assert s[i] == b[i - |a|]; }
        }
      }
      assert lead == |s|;
    } else {
      assert s[|a|] == t[0];
      assert forall i :: 0 <= i < |a| ==> s[i] == a[i];
      assert lead == |a|;
      var trail := TrailingSpaces(s);
      assert s[|a| + |t| - 1] == t[|t| - 1];
      assert forall i :: 0 <= i < |b| ==> s[|a| + |t| + i] == b[i];
      assert trail == |b|;
      assert s[lead..|s| - trail] == t;
    }
  }

  /** Stripping twice is stripping once. */
  lemma StripIdempotent(s: string)
    ensures Strip(Strip(s)) == Strip(s)
  {
    StripPadded([], Strip(s), []);
    assert [] + Strip(s) + [] == Strip(s);
  }
}

=== FILE: timeseries.dfy ===
/** A single-channel time series: timestamped values in index order. */
module TimeSeries {

  /** Timestamps are modelled as integers on the series' time axis. */
  type Timestamp = int

  datatype Point = Point(time: Timestamp, value: real)

  type Series = seq<Point>

  function Times(s: Series): seq<Timestamp> {
    seq(|s|, i requires 0 <= i < |s| => s[i].time)
  }

  /** Timestamps strictly increase along the series. */
  predicate Increasing(s: Series) {
    forall i, j :: 0 <= i < j < |s| ==> s[i].time < s[j].time
  }
}

=== FILE: wrappers.dfy ===
/** Failure-carrying results for the exceptions the forecasting core raises. */
module Wrappers {

  datatype Option<+T> = None | Some(value: T)

  /** One constructor per error the modelled code raises. */
  datatype Error =
    | UnsupportedModel(name: string)   // get_model: lowercase name is not a registry key
    | NoForecasts                      // ensemble_forecasts: empty input list
    | MismatchedLengths                // series arithmetic on series of different lengths
    | MalformedContents(commas: nat)   // data-URI string does not split into exactly two parts
    | MissingColumns                   // normalised header lacks 'date' or 'value'

  /** A value, or the error that aborted the computation; usable with `:-`. */
  datatype Result<+T> = Ok(value: T) | Err(error: Error) {

    predicate IsFailure() {
      Err?
    }

    function PropagateFailure<U>(): Result<U>
      requires Err?
    {
      Err(error)
    }

    function Extract(): T
      requires Ok?
    {
      value
    }
  }
}
